=== FILE: README.md ===
# Resilient structured-extraction clients of the DevSecOps audit stages

This project models the parts of two audit stages that talk to the remote
generative-text service:

- The Kubernetes hardening stage. `generate_policy_payload` builds a
  schema-constrained request. `call_gemini_api` POSTs it up to five times,
  sleeping `2 ** attempt` seconds after every faulted attempt, and returns
  the JSON embedded at `candidates[0].content.parts[0].text`, or the `{}`
  sentinel once the attempts run out. `main` guards on the key, reads and
  strips the request file, refuses a falsy result and writes two files.
- The infrastructure audit stage. `audit_infrastructure` reads the plan
  file, then makes up to three `generate_content` calls. An error whose
  message contains `"503"`, or whose lower-cased message contains
  `"overloaded"`, waits `(attempt + 1) * 5` seconds and retries. Any other
  error ends the loop at once.

The network is a script. It is a sequence of outcomes, and entry `a` is what
0-indexed attempt `a` gets back. Sleeping is modelled as a log of durations.
`json.loads` is a parameter `string -> Option<Json>` (`None` where it
raises). Python's `str()` of a non-string JSON value is a parameter `show`.
Both retry loops are recursive functions. `RunFrom` runs over the
per-attempt results of the script and returns the ending, the faults and
the sleeps. `LoopFrom` runs over the script and returns the exit, the
report file's contents, the sleeps and the number of calls.

Modules: `Options`, `Files` (what reading an input file gives), `Json`
(decoded values, Python truthiness, `dict.get`, subscript paths), `Text`
(`in`, `lower()`, `strip()`), `Backoff` (the two wait schedules and their
sums), `PolicyPayload`, `GeminiClient`, `PolicyGenerator` and
`CostAuditor`.

## Behaviour worth noting

- `call_gemini_api` makes at most `MAX_RETRIES` (5) attempts; the budget
  is not 6.
- A sleep also follows the last failed attempt: 1+2+4+8+16 = 31 seconds
  before the sentinel.
- On the sentinel, the hardening stage writes no file at all.
- The audit stage retries only an error whose message contains `"503"`,
  or, lower-cased, `"overloaded"`. Any other error ends the loop, and so does a failed write of a
  response without text.
- The last of three retryable errors is also followed by a 15-second wait,
  although the code's comment mentions only 5 s and 10 s.
- An input file that exists but cannot be read is handled differently by
  the two stages. The hardening stage's outer `except Exception` reports it
  as a critical error. The audit stage catches only FileNotFoundError, so
  the error escapes `audit_infrastructure`. Neither makes a call.

## Model

| member | source | states |
|---|---|---|
| `GeminiClient.Call` | k8s_policy_generator.py:60-91 | at most `MAX_RETRIES` (5) POSTs; falling out of the loop returns `{}`; the sleep after the fault at attempt `i` is `2^i`; the faults logged are exactly those of the attempts made, and a return hands back the parse of the attempt after them |
| `GeminiClient.RunFrom` | k8s_policy_generator.py:62-88 | from any attempt number on: one sleep per fault, sleep `2^(attempt+i)` after the i-th fault, exhaustion only after the last allowed attempt, a return only on a parsed attempt |
| `GeminiClient.Extract` | k8s_policy_generator.py:71-78 | the guard-and-subscript extraction of the embedded JSON from a decoded body, in Python's evaluation order; it has no contract of its own, and `ExtractFollowsTextPath` states what it yields |
| `GeminiClient.ExtractFollowsTextPath` | k8s_policy_generator.py:71-78 | the three-part truthiness guard followed by the subscripts and `json.loads` succeeds exactly when `candidates/0/content/parts/0/text` exists, is a string and parses, and yields that parse |
| `GeminiClient.Attempt` | k8s_policy_generator.py:63-88 | one iteration of the loop: an HTTP fault, missing content, an exception, or the parse; it has no contract of its own, and `AttemptSucceedsIff` states when it succeeds and which faults it reports |
| `GeminiClient.AttemptSucceedsIff` | k8s_policy_generator.py:63-88 | an attempt succeeds iff the status is not 4xx/5xx, the body is JSON and the embedded text parses, and the value is that parse; HTTP error statuses and only they are HTTP faults, with their status |
| `GeminiClient.FirstSuccessReturned` | k8s_policy_generator.py:62-78 | success first at attempt `k` returns that parse after exactly `k+1` attempts, with sleeps `2^0 .. 2^(k-1)` that total `2^k - 1` |
| `GeminiClient.AllFaultsIffExhausted` | k8s_policy_generator.py:62-91 | every attempt faults iff the loop falls through to the sentinel |
| `GeminiClient.ExhaustedSchedule` | k8s_policy_generator.py:62-91 | when all five attempts fault: five attempts, sleeps exactly [1,2,4,8,16], 31 in all (the last failure is slept after too), result `{}` |
| `GeminiClient.SleepIgnoresFaultKind` | k8s_policy_generator.py:80-88 | the sleep schedule depends only on how many attempts faulted, not on whether the fault was HTTP, missing content or an exception |
| `GeminiClient.OnlyConsultedOutcomesMatter` | k8s_policy_generator.py:62-78 | two scripts that agree on the attempts actually made give the same call: outcomes after a success are never consulted |
| `GeminiClient.EmptyObjectLooksLikeSentinel` | k8s_policy_generator.py:62-91 | a first success at any attempt whose text parses to `{}` returns a value equal to the failure sentinel |
| `PolicyGenerator.Generate` | k8s_policy_generator.py:93-136 | an empty key stops before anything else; a missing request file stops before any payload, call or file; an unreadable one is a critical error with no call and no files; the payload is built and the call made exactly when there is a key and a readable request, the payload from the stripped request; a falsy result is a failure with no files; a crash after the call leaves no file or only an empty YAML file; a save writes exactly the YAML and policy files |
| `PolicyGenerator.ExhaustionWritesNothing` | k8s_policy_generator.py:108-112 | when every attempt faults, `main` reports failure and writes no file |
| `PolicyGenerator.EmptyResultIndistinguishable` | k8s_policy_generator.py:108-112 | a run whose first success, at any attempt, parses to `{}` and a run where all five attempts fault end with the same status and the same (empty) set of files |
| `PolicyGenerator.SavedFilesContents` | k8s_policy_generator.py:110-125 | with a key and a request file, files are saved iff the result is a non-empty dict whose YAML entry (default `""`) is a string; the YAML file then holds that string verbatim and the policy file `"Policy Enforced: " + summary + ...`, with `summary` defaulting to `N/A` |
| `PolicyPayload.ToJson` | k8s_policy_generator.py:35-48 | the wire form of a schema node (`type`, `properties`, `required`, `description`); it has no contract of its own, and `SchemaRoundTrip` states that `FromJson` decodes it back |
| `PolicyPayload.PolicySchemaShape` | k8s_policy_generator.py:35-48 | the schema is a well-formed OBJECT whose `required` names are exactly its property keys, both STRING |
| `PolicyPayload.SchemaRoundTrip` | k8s_policy_generator.py:35-48 | decoding the wire form of any schema gives back that schema |
| `PolicyPayload.BuildPayload` | k8s_policy_generator.py:14-58 | `generate_policy_payload`; it has no contract of its own, and `PayloadRequestsJson`, `PayloadParts`, `QueryEndsWithRequirement` and `PayloadRoundTrip` state what it builds |
| `PolicyPayload.PayloadRequestsJson` | k8s_policy_generator.py:50-56 | the payload has exactly the keys contents/systemInstruction/generationConfig, `responseMimeType` is `application/json` and `responseSchema` is the policy schema |
| `PolicyPayload.PayloadParts` | k8s_policy_generator.py:50-52 | `contents` holds one turn with one part carrying the user query; `systemInstruction` holds one part carrying the system prompt |
| `PolicyPayload.QueryEndsWithRequirement` | k8s_policy_generator.py:27-31 | after the fixed introduction the user query is `"SECURITY REQUIREMENT: " + security_request` |
| `PolicyPayload.PayloadRoundTrip` | k8s_policy_generator.py:14-58 | the security requirement is read back unchanged from the payload built from it |
| `PolicyPayload.PayloadInjective` | k8s_policy_generator.py:14-58 | different requirements give different payloads |
| `Text.Strip` | k8s_policy_generator.py:103 | `strip()` returns a contiguous slice with only whitespace cut on either side and no whitespace at either end |
| `Text.StripIdempotent` | k8s_policy_generator.py:103 | stripping the stripped request changes nothing |
| `Backoff.ExponentialLogSum` | k8s_policy_generator.py:81-88 | the exponential waits after `n` faults total `2^n - 1` |
| `Backoff.ExponentialLogFive` | k8s_policy_generator.py:12 | with `MAX_RETRIES` = 5 the schedule is [1,2,4,8,16] |
| `Backoff.LinearLogSum` | cost_auditor.py:42-44 | the linear waits after `n` retryable faults total `5n(n+1)/2` |
| `CostAuditor.AuditInfrastructure` | cost_auditor.py:11-49 | at most 3 calls; a missing plan file returns and an unreadable one raises its error, both without a call; the prompt is the fixed prefix followed by the plan and the loop runs on the script from attempt 0 with no report file; the closing "Critical" notice is printed iff no report was returned |
| `CostAuditor.LoopFrom` | cost_auditor.py:25-47 | one wait of `(a+1)*5` per retried attempt `a`, and only after an exception whose message is retryable; running out only after the third call; a report ends the loop and writes exactly `response.text`; a non-retryable error ends it with that message |
| `CostAuditor.Retryable` | cost_auditor.py:41 | the `"503"` / lower-cased `"overloaded"` test of the `except` clause; it has no contract of its own, and `RetryableIgnoresCase` and `WriteNoneErrorNotRetryable` state its properties |
| `CostAuditor.RetryableIgnoresCase` | cost_auditor.py:41 | the retry test gives the same answer for a message and its lower-cased form |
| `CostAuditor.WriteNoneErrorNotRetryable` | cost_auditor.py:33-41 | the TypeError raised by writing a missing `response.text` is not retryable |
| `CostAuditor.MissingInputMakesNoCall` | cost_auditor.py:13-18 | a missing `test_plan.txt` returns before any call; an unreadable one raises its error out of the function before any call |
| `CostAuditor.PromptRoundTrip` | cost_auditor.py:20 | the plan text is recovered verbatim from the prompt |
| `CostAuditor.AllRetryableRunsOut` | cost_auditor.py:25-49 | three retryable errors: three calls, waits [5,10,15] (30 s), no report, failure notice |
| `CostAuditor.FirstTextReported` | cost_auditor.py:26-38 | the first response with text after `k` retryable errors is written verbatim, after `k+1` calls and waits `5, 10, ...`, with no failure notice |
| `CostAuditor.ErrorOf` | cost_auditor.py:27-40 | the exception an attempt ends in: the SDK's own, or the TypeError of writing a missing `response.text`; it has no contract of its own, and `LoopFrom`, `NonRetryableBreaks` and `MissingTextBreaks` state its effect on the loop |
| `CostAuditor.NonRetryableBreaks` | cost_auditor.py:40-49 | a non-retryable error after `k` retryable ones stops after `k+1` calls with no wait of its own, and reaches the same failure notice as running out |
| `CostAuditor.FileAfter` | cost_auditor.py:33-34 | the report file after an attempt: opened for writing (emptied) and then written, or untouched on an SDK error; it has no contract of its own, and `LoopFrom`, `FirstTextReported` and `MissingTextBreaks` state the file each exit leaves |
| `CostAuditor.MissingTextBreaks` | cost_auditor.py:33-34 | a response without text leaves an emptied report file and ends the loop after one call |
| `CostAuditor.OnlyConsultedRepliesMatter` | cost_auditor.py:26-38 | replies after the last call made are never consulted |

## Left out

- main.py: the orchestrator spawns a subprocess per stage, clears the
  screen, prints banners and sleeps for display. It is process plumbing
  with no state to reason about. patch_analyzer.py is not part of this
  model.
- Transport: `requests.post`, `raise_for_status`, `response.json()` and the
  `google.genai` client are replaced by the scripted outcomes. A reply's
  status, its decoded body (or the failure to decode it) and a connection
  exception are the only things the model keeps. The script must cover
  every attempt the loop may make (`|script| >=` the attempt budget).
- JSON text: `json.loads` and `json.dumps` are not given a grammar. The
  parser is a parameter, and the request body is never serialised.
- JSON numbers are integers. Float truthiness (`0.0` is false) is not
  modelled.
- Python `str()` of a non-string JSON value (used in the policy summary
  line) is the parameter `show`.
- Lower-casing is modelled for ASCII letters only. The only non-ASCII
  characters whose lower case contains ASCII letters are U+0130 and U+212A,
  and neither yields a letter of "overloaded". So the retry test is
  unaffected.
- Sleeping, printing and file I/O: sleeps are a duration log. Only the
  final "Critical" notice and the contents of the files written are kept,
  because properties depend on them. Other console text is dropped. Errors
  opening output files for writing are not modelled.
- Reading input files: the file is one of missing, unreadable (with the
  error's message) or its text. The text is what Python's text mode
  returns, after universal-newline translation of `\r\n` and `\r` to
  `\n`; the translation itself and the decoding are not modelled.
- Configuration: the API key is a string argument (empty meaning unset).
  The model name and URL are configuration only.
- The instruction texts are kept as string constants. Nothing is stated
  about their wording beyond their place in the payload.
- Array nodes of the schema: the policy schema uses only OBJECT and STRING.

=== FILE: backoff.dfy ===
/** Wait schedules of the two retry loops and the arithmetic about them. */
module Backoff {

  function Pow2(n: nat): (r: nat)
    ensures r >= 1
  {
    if n == 0 then 1 else 2 * Pow2(n - 1)
  }

  /** Total of a log of waits. */
  function Sum(s: seq<nat>): nat {
    if |s| == 0 then 0 else Sum(s[..|s| - 1]) + s[|s| - 1]
  }

  /** The waits after `n` faulted attempts of the exponential policy: `2 ** a`
      after attempt `a`. */
  function ExponentialLog(n: nat): seq<nat> {
    seq(n, i requires 0 <= i < n => Pow2(i))
  }

  /** The waits after `n` retryable faults of the linear policy:
      `(a + 1) * 5` after attempt `a`. */
  function LinearLog(n: nat): seq<nat> {
    seq(n, i requires 0 <= i < n => (i + 1) * 5)
  }

  /** The exponential waits before a success at attempt `n` add up to `2^n - 1`. */
  lemma {:induction false} ExponentialLogSum(n: nat)
    ensures Sum(ExponentialLog(n)) == Pow2(n) - 1
  {
    if n > 0 {
      assert ExponentialLog(n)[..n - 1] == ExponentialLog(n - 1);
      ExponentialLogSum(n - 1);
    }
  }

  /** The linear waits after `n` retryable faults add up to `5 * n * (n + 1) / 2`. */
  lemma {:induction false} LinearLogSum(n: nat)
    ensures 2 * Sum(LinearLog(n)) == 5 * n * (n + 1)
  {
    if n > 0 {
      assert LinearLog(n)[..n - 1] == LinearLog(n - 1);
      LinearLogSum(n - 1);
    }
  }

  /** The exponential schedule of five faulted attempts, written out. */
  lemma ExponentialLogFive()
    ensures ExponentialLog(5) == [1, 2, 4, 8, 16]
    ensures Pow2(5) == 32
  {
  }
}

=== FILE: cost_auditor.dfy ===
/** `audit_infrastructure`: read the plan, then up to three
    `generate_content` calls; an error whose message mentions "503" or
    "overloaded" waits `(attempt + 1) * 5` seconds and retries, any other
    error ends the loop at once.

    The SDK is a script: `script[a]` is what attempt `a` (0-indexed) gets. */
module CostAuditor {
  import opened Options
  import opened Files
  import opened Text
  import opened Backoff

  const MaxAttempts: nat := 3

  const PromptPrefix: string := "Analyze this Terraform Plan for cost and security. Return JSON: "

  /** The TypeError text-mode `write` raises when handed `None`. */
  const WriteNoneError: string := "write() argument must be str, not None"

  /** What `client.models.generate_content` does: return a response whose
      `.text` may be `None`, or raise an exception with the given `str(e)`. */
  datatype Reply = Generated(text: Option<string>) | Raised(message: string)

  /** The test in the `except` clause. */
  predicate Retryable(message: string) {
    Contains(message, "503") || Contains(Lower(message), "overloaded")
  }

  /** The wait after a retryable error on attempt `attempt`. */
  function Wait(attempt: nat): nat {
    (attempt + 1) * 5
  }

  /** The message of the exception an attempt ends in, if it ends in one:
      the SDK's own, or the TypeError of writing a missing text. */
  function ErrorOf(r: Reply): Option<string> {
    match r
    case Generated(Some(_)) => None
    case Generated(None) => Some(WriteNoneError)
    case Raised(m) => Some(m)
  }

  /** The contents of infrastructure_audit_report.json after an attempt
      (`None`: not touched in this run). Opening it for writing empties it
      before `write` runs. */
  function FileAfter(r: Reply, file: Option<string>): Option<string> {
    match r
    case Generated(Some(t)) => Some(t)
    case Generated(None) => Some("")
    case Raised(_) => file
  }

  /** The classification ignores letter case: a message is retryable
      exactly when its lower-cased form is. */
  lemma RetryableIgnoresCase(message: string)
    ensures Retryable(message) <==> Retryable(Lower(message))
  {
    LowerIdempotent(message);
    var low := Lower(message);
    if Contains(low, "503") {
      var i :| 0 <= i <= |low| - 3 && OccursAt(low, "503", i);
      LowerCreatesNoLetterless(message, "503", i);
      assert OccursAt(message, "503", i);
      assert Contains(message, "503");
    }
    if Contains(message, "503") {
      var i :| 0 <= i <= |message| - 3 && OccursAt(message, "503", i);
      forall k | 0 <= k < 3 ensures low[i + k] == "503"[k] {
        assert message[i..i + 3][k] == message[i + k];
      }
      assert low[i..i + 3] == "503";
      assert OccursAt(low, "503", i);
    }
    assert Contains(low, "503") <==> Contains(message, "503");
    assert Contains(Lower(low), "overloaded") <==> Contains(low, "overloaded");
  }

  /** Writing a missing text is not a retryable error. */
  lemma WriteNoneErrorNotRetryable()
    ensures !Retryable(WriteNoneError)
  {
    assert "503"[0] == '5';
    MissingCharRulesOut(WriteNoneError, "503", 0);
    var lowered := Lower(WriteNoneError);
    assert "overloaded"[1] == 'v';
    forall i | 0 <= i < |lowered| ensures lowered[i] != 'v' {
      assert WriteNoneError[i] != 'v' && WriteNoneError[i] != 'V';
    }
    MissingCharRulesOut(lowered, "overloaded", 1);
  }

  /** How the loop ended: the `return` after a report, the `break` on a
      non-retryable error, or falling out of the `for`. */
  datatype Exit = Reported(text: string) | BrokeOff(message: string) | RanOut

  /** The loop's exit, the report file, the sleeps taken and the number of
      calls made. */
  datatype LoopRun = LoopRun(exit: Exit, report: Option<string>, sleeps: seq<nat>, attempts: nat)

  /** The loop from attempt number `attempt` on, with the report file as it
      stands. */
  function LoopFrom(script: seq<Reply>, attempt: nat, file: Option<string>): (run: LoopRun)
    requires attempt <= MaxAttempts <= |script|
    ensures attempt + run.attempts <= MaxAttempts
    ensures run.attempts == |run.sleeps| + if run.exit.RanOut? then 0 else 1
    ensures forall i :: 0 <= i < |run.sleeps| ==>
              && run.sleeps[i] == Wait(attempt + i)
              && script[attempt + i].Raised? && Retryable(script[attempt + i].message)
    ensures run.exit.RanOut? ==> attempt + |run.sleeps| == MaxAttempts && run.report == file
    ensures run.exit.Reported? ==>
              && script[attempt + |run.sleeps|] == Generated(Some(run.exit.text))
              && run.report == Some(run.exit.text)
    ensures run.exit.BrokeOff? ==>
              && ErrorOf(script[attempt + |run.sleeps|]) == Some(run.exit.message)
              && !Retryable(run.exit.message)
              && run.report == FileAfter(script[attempt + |run.sleeps|], file)
    decreases MaxAttempts - attempt
  {
    if attempt == MaxAttempts then LoopRun(RanOut, file, [], 0)
    else
      var r := script[attempt];
      var file' := FileAfter(r, file);
      match ErrorOf(r)
      case None => LoopRun(Reported(r.text.value), file', [], 1)
      case Some(e) =>
        WriteNoneErrorNotRetryable();
        if Retryable(e) then
          var rest := LoopFrom(script, attempt + 1, file');
          LoopRun(rest.exit, rest.report, [Wait(attempt)] + rest.sleeps, rest.attempts + 1)
        else LoopRun(BrokeOff(e), file', [], 1)
  }

  /** One run of `audit_infrastructure`: no plan file (the function
      returns), a plan file that cannot be read (only FileNotFoundError is
      caught, so the error escapes to the caller), or the prompt sent, the
      loop, and whether the closing "Critical" notice was printed. */
  datatype Audit =
    | InputMissing
    | ReadFailed(error: string)
    | Audited(prompt: string, run: LoopRun, criticalNotice: bool)
  {
    function Attempts(): nat {
      if Audited? then run.attempts else 0
    }
  }

  /** `audit_infrastructure()` with what reading the plan file gives and the
      scripted SDK. */
  function AuditInfrastructure(planFile: InputFile, script: seq<Reply>): (a: Audit)
    requires |script| >= MaxAttempts
    ensures a.Attempts() <= MaxAttempts
    ensures a.InputMissing? <==> planFile.Missing?
    ensures a.ReadFailed? <==> planFile.Unreadable?
    ensures a.ReadFailed? ==> a.error == planFile.error
    ensures a.Audited? ==> a.prompt == PromptPrefix + planFile.text
    ensures a.Audited? ==> a.run == LoopFrom(script, 0, None)
    ensures a.Audited? ==> (a.criticalNotice <==> !a.run.exit.Reported?)
  {
    match planFile
    case Missing => InputMissing
    case Unreadable(e) => ReadFailed(e)
    case Contents(plan) =>
      var run := LoopFrom(script, 0, None);
      Audited(PromptPrefix + plan, run, !run.exit.Reported?)
  }

  /** A missing plan file ends the audit before any call, and so does an
      unreadable one, whose error is raised out of the function. */
  lemma MissingInputMakesNoCall(script: seq<Reply>, error: string)
    requires |script| >= MaxAttempts
    ensures AuditInfrastructure(Missing, script).Attempts() == 0
    ensures AuditInfrastructure(Unreadable(error), script) == ReadFailed(error)
    ensures AuditInfrastructure(Unreadable(error), script).Attempts() == 0
  {
  }

  /** The plan text, recovered from a prompt. */
  function PlanOf(prompt: string): Option<string> {
    if PromptPrefix <= prompt then Some(prompt[|PromptPrefix|..]) else None
  }

  /** The prompt is the fixed prefix followed by the plan verbatim. */
  lemma PromptRoundTrip(plan: string, script: seq<Reply>)
    requires |script| >= MaxAttempts
    ensures PlanOf(AuditInfrastructure(Contents(plan), script).prompt) == Some(plan)
  {
    PrefixConcat(PromptPrefix, plan);
  }

  /** Three retryable errors: every call is made, the waits are 5, 10 and
      15 seconds (the last one after the final attempt), no report is
      written and the "Critical" notice follows. */
  lemma AllRetryableRunsOut(plan: string, script: seq<Reply>)
    requires |script| >= MaxAttempts
    requires forall j :: 0 <= j < MaxAttempts ==> script[j].Raised? && Retryable(script[j].message)
    ensures var a := AuditInfrastructure(Contents(plan), script);
            && a.run.exit == RanOut && a.run.attempts == 3
            && a.run.sleeps == [5, 10, 15] && Sum(a.run.sleeps) == 30
            && a.run.report.None? && a.criticalNotice
  {
    var run := LoopFrom(script, 0, None);
    assert run.sleeps == LinearLog(3);
    LinearLogSum(3);
  }

  /** The first attempt that returns a text ends the loop: the earlier
      attempts were retryable errors followed by waits of 5, 10, ...
      seconds, the report file holds exactly that text, nothing later runs
      and no failure notice is printed. */
  lemma FirstTextReported(plan: string, script: seq<Reply>, k: nat, text: string)
    requires MaxAttempts <= |script| && k < MaxAttempts
    requires forall j :: 0 <= j < k ==> script[j].Raised? && Retryable(script[j].message)
    requires script[k] == Generated(Some(text))
    ensures var a := AuditInfrastructure(Contents(plan), script);
            && a.run.exit == Reported(text) && a.run.report == Some(text)
            && a.run.attempts == k + 1 && a.run.sleeps == LinearLog(k)
            && !a.criticalNotice
  {
  }

  /** A non-retryable error (including the TypeError of a missing text)
      after `k` retryable ones stops the loop on the spot: no wait for it,
      no further calls, and the "Critical" notice follows as it does after
      running out. */
  lemma NonRetryableBreaks(plan: string, script: seq<Reply>, k: nat, message: string)
    requires MaxAttempts <= |script| && k < MaxAttempts
    requires forall j :: 0 <= j < k ==> script[j].Raised? && Retryable(script[j].message)
    requires ErrorOf(script[k]) == Some(message) && !Retryable(message)
    ensures var a := AuditInfrastructure(Contents(plan), script);
            && a.run.exit == BrokeOff(message)
            && a.run.attempts == k + 1 && a.run.sleeps == LinearLog(k)
            && a.run.report == (if script[k].Raised? then None else Some(""))
            && a.criticalNotice
  {
  }

  /** A response without text truncates the report file and ends the loop. */
  lemma MissingTextBreaks(plan: string, script: seq<Reply>)
    requires MaxAttempts <= |script|
    requires script[0] == Generated(None)
    ensures var a := AuditInfrastructure(Contents(plan), script);
            a.run.exit == BrokeOff(WriteNoneError) && a.run.report == Some("") && a.run.attempts == 1
  {
    WriteNoneErrorNotRetryable();
    NonRetryableBreaks(plan, script, 0, WriteNoneError);
  }

  /** The loop from any attempt number depends only on the replies to the
      calls it makes. */
  lemma LoopFromPrefix(s1: seq<Reply>, s2: seq<Reply>, attempt: nat, file: Option<string>)
    requires attempt <= MaxAttempts <= |s1| && MaxAttempts <= |s2|
    requires forall i :: attempt <= i < attempt + LoopFrom(s1, attempt, file).attempts ==> s1[i] == s2[i]
    ensures LoopFrom(s1, attempt, file) == LoopFrom(s2, attempt, file)
    decreases MaxAttempts - attempt
  {
  }

  /** Replies after the last call made are never consulted. */
  lemma OnlyConsultedRepliesMatter(plan: string, s1: seq<Reply>, s2: seq<Reply>)
    requires |s1| >= MaxAttempts && |s2| >= MaxAttempts
    requires var n := AuditInfrastructure(Contents(plan), s1).Attempts(); s1[..n] == s2[..n]
    ensures AuditInfrastructure(Contents(plan), s1) == AuditInfrastructure(Contents(plan), s2)
  {
    var run := LoopFrom(s1, 0, None);
    assert AuditInfrastructure(Contents(plan), s1).Attempts() == run.attempts;
    forall i | 0 <= i < run.attempts ensures s1[i] == s2[i] {
      assert s1[i] == s1[..run.attempts][i];
      assert s2[i] == s2[..run.attempts][i];
    }
    LoopFromPrefix(s1, s2, 0, None);
  }
}

=== FILE: files.dfy ===
/** What `open(path, 'r')` followed by `f.read()` gives an input stage. */
module Files {

  /** `Missing`: the open raised FileNotFoundError. `Unreadable`: any other
      error raised while opening, reading or decoding the file
      (PermissionError, IsADirectoryError, UnicodeDecodeError, ...), with
      its `str(e)`. `Contents`: the text read, after Python's text mode has
      turned `\r\n` and `\r` into `\n`. */
  datatype InputFile = Missing | Unreadable(error: string) | Contents(text: string)
}

=== FILE: gemini_client.dfy ===
/** `call_gemini_api`: up to five POSTs of the payload, each followed, when it
    does not yield parsed JSON, by a sleep of `2 ** attempt` seconds; the
    `{}` sentinel once the attempts are used up.

    The network is a script: `script[a]` is what attempt `a` (0-indexed)
    gets back. `json.loads` is the parser parameter `parse`. */
module GeminiClient {
  import opened Options
  import opened Json
  import opened Backoff

  const MaxRetries: nat := 5

  /** What the function returns when every attempt has faulted. */
  const Sentinel: Json := JObj(map[])

  /** `json.loads` on a string: the decoded value, or `None` where it raises. */
  type Parser = string -> Option<Json>

  /** What one `requests.post` gives the loop: it raised before any reply
      arrived, or a reply with a status code and a body that `response.json()`
      either decodes or cannot decode (`None`). */
  datatype Outcome =
    | ConnectionFailure
    | Reply(status: int, body: Option<Json>)

  /** What went wrong in a faulted attempt. These only change the diagnostic
      line; every kind gets the same sleep. */
  datatype Cause =
    | Transport       // requests.post raised
    | BodyNotJson     // response.json() raised
    | EnvelopeShape   // a subscript or `.get` on a value of the wrong kind raised
    | TextNotJson     // json.loads on the embedded text raised

  datatype Fault =
    | HttpFault(status: int)   // raise_for_status raised HTTPError
    | NoContent                // the truthiness guard failed
    | Unexpected(cause: Cause) // any other exception

  datatype AttemptResult = Parsed(value: Json) | Faulted(fault: Fault)

  /** The statuses `raise_for_status` rejects. */
  predicate IsHttpErrorStatus(status: int) {
    400 <= status < 600
  }

  /** `['candidates'][0]['content']['parts'][0]['text']` */
  const TextPath: seq<Step> :=
    [Key("candidates"), Index(0), Key("content"), Key("parts"), Index(0), Key("text")]

  /** The string at the end of the text path, if the path exists and ends in one. */
  function EmbeddedText(body: Json): Option<string> {
    match Lookup(body, TextPath)
    case Some(JStr(t)) => Some(t)
    case _ => None
  }

  /** The body of the `try` after `response.json()`, in Python's order of
      evaluation: the three-part truthiness guard, then the subscripts, then
      `json.loads`. */
  function Extract(body: Json, parse: Parser): AttemptResult {
    if !body.JObj? then Faulted(Unexpected(EnvelopeShape))
    else
      var candidates := Get(body, "candidates");
      if !Truthy(candidates) then Faulted(NoContent)
      else if !candidates.JArr? then Faulted(Unexpected(EnvelopeShape))
      else
        var first := candidates.items[0];
        if !first.JObj? then Faulted(Unexpected(EnvelopeShape))
        else
          var content := Get(first, "content");
          if !Truthy(content) then Faulted(NoContent)
          else if !content.JObj? then Faulted(Unexpected(EnvelopeShape))
          else
            var parts := Get(content, "parts");
            if !Truthy(parts) then Faulted(NoContent)
            else if !parts.JArr? then Faulted(Unexpected(EnvelopeShape))
            else
              var part := parts.items[0];
              if !(part.JObj? && "text" in part.fields) then Faulted(Unexpected(EnvelopeShape))
              else match part.fields["text"]
                case JStr(t) =>
                  (match parse(t)
                   case Some(v) => Parsed(v)
                   case None => Faulted(Unexpected(TextNotJson)))
                case _ => Faulted(Unexpected(TextNotJson))
  }

  /** Python's guard-then-subscript sequence succeeds exactly when the text
      path exists, ends in a string, and that string parses; the value
      returned is that parse. */
  lemma ExtractFollowsTextPath(body: Json, parse: Parser)
    ensures Extract(body, parse).Parsed?
            <==> EmbeddedText(body).Some? && parse(EmbeddedText(body).value).Some?
    ensures Extract(body, parse).Parsed?
            ==> parse(EmbeddedText(body).value) == Some(Extract(body, parse).value)
  {
  }

  /** One iteration of the loop body. */
  function Attempt(o: Outcome, parse: Parser): AttemptResult {
    match o
    case ConnectionFailure => Faulted(Unexpected(Transport))
    case Reply(status, body) =>
      if IsHttpErrorStatus(status) then Faulted(HttpFault(status))
      else match body
        case None => Faulted(Unexpected(BodyNotJson))
        case Some(b) => Extract(b, parse)
  }

  /** An attempt succeeds exactly when the reply is not an HTTP error, its
      body is JSON, the text path exists and ends in a string, and that
      string parses; the value is that parse. HTTP error statuses, and only
      they, are reported as HTTP faults. */
  lemma AttemptSucceedsIff(o: Outcome, parse: Parser)
    ensures Attempt(o, parse).Parsed? <==>
              && o.Reply? && !IsHttpErrorStatus(o.status) && o.body.Some?
              && EmbeddedText(o.body.value).Some?
              && parse(EmbeddedText(o.body.value).value).Some?
    ensures Attempt(o, parse).Parsed?
            ==> parse(EmbeddedText(o.body.value).value) == Some(Attempt(o, parse).value)
    ensures (Attempt(o, parse).Faulted? && Attempt(o, parse).fault.HttpFault?)
            <==> o.Reply? && IsHttpErrorStatus(o.status)
    ensures Attempt(o, parse).Faulted? && Attempt(o, parse).fault.HttpFault?
            ==> Attempt(o, parse).fault.status == o.status
  {
  }

  /** How the loop ended: a `return json.loads(...)`, or falling out of the `for`. */
  datatype Ending = Returned(value: Json) | Exhausted

  /** One call: how it ended, the faults met on the way (one diagnostic line
      each) and the sleeps taken, in order. */
  datatype Trace = Trace(ending: Ending, faults: seq<Fault>, sleeps: seq<nat>) {

    /** The value handed back to the caller. */
    function Result(): Json {
      if ending.Returned? then ending.value else Sentinel
    }

    /** Number of POSTs made. */
    function Attempts(): nat {
      |faults| + if ending.Returned? then 1 else 0
    }
  }

  /** What each attempt of the script would yield if it were made. */
  function Classify(script: seq<Outcome>, parse: Parser): seq<AttemptResult> {
    seq(|script|, i requires 0 <= i < |script| => Attempt(script[i], parse))
  }

  /** The loop from attempt number `attempt` on, over the attempt results. */
  function RunFrom(results: seq<AttemptResult>, attempt: nat): (t: Trace)
    requires attempt <= MaxRetries <= |results|
    ensures |t.sleeps| == |t.faults|
    ensures attempt + t.Attempts() <= MaxRetries
    ensures t.ending.Exhausted? ==> attempt + |t.faults| == MaxRetries
    ensures forall i :: 0 <= i < |t.faults| ==> results[attempt + i] == Faulted(t.faults[i])
    ensures forall i :: 0 <= i < |t.sleeps| ==> t.sleeps[i] == Pow2(attempt + i)
    ensures t.ending.Returned? ==> results[attempt + |t.faults|] == Parsed(t.ending.value)
    decreases MaxRetries - attempt
  {
    if attempt == MaxRetries then Trace(Exhausted, [], [])
    else match results[attempt]
      case Parsed(v) => Trace(Returned(v), [], [])
      case Faulted(f) =>
        var rest := RunFrom(results, attempt + 1);
        Trace(rest.ending, [f] + rest.faults, [Pow2(attempt)] + rest.sleeps)
  }

  /** `call_gemini_api(payload)`, the network replaced by `script`. */
  function Call(script: seq<Outcome>, parse: Parser): (t: Trace)
    requires |script| >= MaxRetries
    ensures t.Attempts() <= MaxRetries
    ensures t.ending.Exhausted? ==> t.Attempts() == MaxRetries && t.Result() == Sentinel
    ensures |t.sleeps| == |t.faults|
    ensures forall i :: 0 <= i < |t.sleeps| ==> t.sleeps[i] == Pow2(i)
    ensures forall i :: 0 <= i < |t.faults| ==> Attempt(script[i], parse) == Faulted(t.faults[i])
    ensures t.ending.Returned? ==> Attempt(script[|t.faults|], parse) == Parsed(t.ending.value)
  {
    RunFrom(Classify(script, parse), 0)
  }

  /** The loop ends at the first attempt that yields parsed JSON: `2^a`
      seconds were slept after each earlier attempt `a`, `2^k - 1` in all,
      and the parse is what comes back. */
  lemma FirstSuccessReturned(script: seq<Outcome>, parse: Parser, k: nat, v: Json)
    requires k < MaxRetries <= |script|
    requires forall j :: 0 <= j < k ==> Attempt(script[j], parse).Faulted?
    requires Attempt(script[k], parse) == Parsed(v)
    ensures Call(script, parse).ending == Returned(v)
    ensures Call(script, parse).Result() == v
    ensures Call(script, parse).Attempts() == k + 1
    ensures Call(script, parse).sleeps == ExponentialLog(k)
    ensures Sum(Call(script, parse).sleeps) == Pow2(k) - 1
  {
    var t := Call(script, parse);
    assert t.sleeps == ExponentialLog(k);
    ExponentialLogSum(k);
  }

  /** All attempts fault exactly when the call falls through to the sentinel. */
  lemma AllFaultsIffExhausted(script: seq<Outcome>, parse: Parser)
    requires |script| >= MaxRetries
    ensures (forall j :: 0 <= j < MaxRetries ==> Attempt(script[j], parse).Faulted?)
            <==> Call(script, parse).ending.Exhausted?
  {
  }

  /** When every attempt faults, all five are made, each is followed by a
      sleep (the last one included) of 1, 2, 4, 8, 16 seconds, 31 in all,
      and the result is `{}`. */
  lemma ExhaustedSchedule(script: seq<Outcome>, parse: Parser)
    requires |script| >= MaxRetries
    requires forall j :: 0 <= j < MaxRetries ==> Attempt(script[j], parse).Faulted?
    ensures Call(script, parse).Result() == Sentinel
    ensures Call(script, parse).Attempts() == MaxRetries
    ensures Call(script, parse).sleeps == [1, 2, 4, 8, 16]
    ensures Sum(Call(script, parse).sleeps) == 31
  {
    AllFaultsIffExhausted(script, parse);
    var t := Call(script, parse);
    assert |t.sleeps| == 5;
    assert t.sleeps == ExponentialLog(5);
    ExponentialLogSum(5);
    ExponentialLogFive();
  }

  /** The sleep after a faulted attempt depends on its number only: two
      scripts that fault the same number of times, for whatever reasons,
      sleep the same. */
  lemma SleepIgnoresFaultKind(s1: seq<Outcome>, s2: seq<Outcome>, parse: Parser)
    requires |s1| >= MaxRetries && |s2| >= MaxRetries
    requires |Call(s1, parse).faults| == |Call(s2, parse).faults|
    ensures Call(s1, parse).sleeps == Call(s2, parse).sleeps
  {
  }

  /** The loop from any attempt number depends only on the results of the
      attempts it makes. */
  lemma RunFromPrefix(r1: seq<AttemptResult>, r2: seq<AttemptResult>, attempt: nat)
    requires attempt <= MaxRetries <= |r1| && MaxRetries <= |r2|
    requires forall i :: attempt <= i < attempt + RunFrom(r1, attempt).Attempts() ==> r1[i] == r2[i]
    ensures RunFrom(r1, attempt) == RunFrom(r2, attempt)
    decreases MaxRetries - attempt
  {
  }

  /** Outcomes after the last attempt made are never consulted. */
  lemma OnlyConsultedOutcomesMatter(s1: seq<Outcome>, s2: seq<Outcome>, parse: Parser)
    requires |s1| >= MaxRetries && |s2| >= MaxRetries
    requires s1[..Call(s1, parse).Attempts()] == s2[..Call(s1, parse).Attempts()]
    ensures Call(s1, parse) == Call(s2, parse)
  {
    var r1 := Classify(s1, parse);
    var r2 := Classify(s2, parse);
    assert Call(s1, parse) == RunFrom(r1, 0);
    ClassifyPrefix(s1, s2, parse, RunFrom(r1, 0).Attempts());
    RunFromPrefix(r1, r2, 0);
  }

  /** Scripts that agree on their first `n` outcomes agree on their first
      `n` attempt results. */
  lemma ClassifyPrefix(s1: seq<Outcome>, s2: seq<Outcome>, parse: Parser, n: nat)
    requires n <= |s1| && n <= |s2| && s1[..n] == s2[..n]
    ensures forall i :: 0 <= i < n ==> Classify(s1, parse)[i] == Classify(s2, parse)[i]
  {
    forall i | 0 <= i < n ensures Classify(s1, parse)[i] == Classify(s2, parse)[i] {
      assert s1[i] == s1[..n][i];
      assert s2[i] == s2[..n][i];
    }
  }

  /** A first success whose text parses to `{}`, at whatever attempt,
      returns a value equal to the failure sentinel: the caller cannot tell
      the two apart. */
  lemma EmptyObjectLooksLikeSentinel(script: seq<Outcome>, parse: Parser, k: nat)
    requires k < MaxRetries <= |script|
    requires forall j :: 0 <= j < k ==> Attempt(script[j], parse).Faulted?
    requires Attempt(script[k], parse) == Parsed(JObj(map[]))
    ensures Call(script, parse).ending.Returned?
    ensures Call(script, parse).Result() == Sentinel
  {
    FirstSuccessReturned(script, parse, k, JObj(map[]));
  }
}

=== FILE: json.dfy ===
/** Decoded JSON values as Python's `json` module hands them to the program,
    together with the two ways the program inspects them: Python truthiness
    (`if x:`) and `dict.get`. */
module Json {
  import opened Options

  /** A decoded JSON value. Objects are maps: key order never matters to the
      code modelled here. Numbers are integers (see README, "Left out"). */
  datatype Json =
    | JNull
    | JBool(b: bool)
    | JNum(n: int)
    | JStr(s: string)
    | JArr(items: seq<Json>)
    | JObj(fields: map<string, Json>)

  /** Python truthiness of the decoded value: `None`, `False`, `0`, `""`,
      `[]` and `{}` are false, everything else is true. */
  predicate Truthy(j: Json) {
    match j
    case JNull => false
    case JBool(b) => b
    case JNum(n) => n != 0
    case JStr(s) => |s| > 0
    case JArr(items) => |items| > 0
    case JObj(fields) => |fields| > 0
  }

  /** `obj.get(key)`: a missing key reads as `None`, which is `null`. */
  function Get(obj: Json, key: string): Json
    requires obj.JObj?
  {
    if key in obj.fields then obj.fields[key] else JNull
  }

  /** `obj.get(key, default)`. */
  function GetOr(obj: Json, key: string, default: Json): Json
    requires obj.JObj?
  {
    if key in obj.fields then obj.fields[key] else default
  }

  /** One step of a subscript chain such as `x['candidates'][0]`. */
  datatype Step = Key(name: string) | Index(i: nat)

  /** Follows a subscript chain; `None` when some step does not exist (a
      missing key, an index out of range, or a step into a value of the
      wrong kind). */
  function Lookup(j: Json, path: seq<Step>): Option<Json>
    decreases |path|
  {
    if |path| == 0 then Some(j)
    else match path[0]
      case Key(k) =>
        if j.JObj? && k in j.fields then Lookup(j.fields[k], path[1..]) else None
      case Index(i) =>
        if j.JArr? && i < |j.items| then Lookup(j.items[i], path[1..]) else None
  }

  /** The length of the array at the end of a subscript chain, if it is one. */
  function LengthAt(j: Json, path: seq<Step>): Option<nat> {
    match Lookup(j, path)
    case Some(JArr(items)) => Some(|items|)
    case _ => None
  }
}

=== FILE: options.dfy ===
/** The usual Some/None wrapper, used for partial results throughout the model. */
module Options {

  datatype Option<+T> = None | Some(value: T)
}

=== FILE: policy_generator.dfy ===
/** `main` of the Kubernetes hardening stage: the configuration guard, the
    request file, the call, the "no results" guard and the two output files. */
module PolicyGenerator {
  import opened Options
  import opened Files
  import opened Json
  import opened Text
  import PolicyPayload
  import opened GeminiClient

  const YamlFile: string := "hardened_deployment.yaml"
  const PolicyFile: string := "enforcement_policy_summary.txt"

  datatype Status =
    | KeyMissing        // GEMINI_API_KEY empty or unset: nothing else happens
    | RequestMissing    // security_request.txt not found
    | AnalysisFailed    // the call returned a falsy value
    | Crashed           // an exception reached the outer `except Exception`
    | Saved             // both files written

  /** One run of `main`: how it ended, the payload it sent (if it got that far),
      the call's trace, and the files it left behind, by name. */
  datatype GeneratorRun = GeneratorRun(
    status: Status,
    payload: Option<Json>,
    trace: Option<Trace>,
    files: map<string, string>)

  /** Python's `str(value)` inside an f-string: strings as they are, other
      values through `show`. */
  function Str(v: Json, show: Json -> string): string {
    if v.JStr? then v.s else show(v)
  }

  function PolicyText(summary: string): string {
    "Policy Enforced: " + summary + "\n\nGenerated for: Nginx-Deployment"
  }

  /** `main()` with the key, what reading the request file gives, the
      scripted network, `json.loads` and `str`. */
  function Generate(apiKey: string, requestFile: InputFile, script: seq<Outcome>,
                    parse: Parser, show: Json -> string): (g: GeneratorRun)
    requires |script| >= MaxRetries
    ensures g.status == KeyMissing <==> apiKey == ""
    ensures g.status == KeyMissing ==> g.trace.None? && g.files == map[]
    ensures g.status == RequestMissing <==> apiKey != "" && requestFile.Missing?
    ensures g.status == RequestMissing ==> g.files == map[]
    ensures apiKey != "" && requestFile.Unreadable? ==>
              g.status == Crashed && g.trace.None? && g.files == map[]
    ensures g.trace.Some? <==> apiKey != "" && requestFile.Contents?
    ensures g.payload.Some? <==> g.trace.Some?
    ensures g.status in {KeyMissing, RequestMissing} ==> g.payload.None?
    ensures g.trace.Some? ==>
              && g.payload == Some(PolicyPayload.BuildPayload(Strip(requestFile.text)))
              && g.trace.value == Call(script, parse)
    ensures g.status == AnalysisFailed <==> g.trace.Some? && !Truthy(g.trace.value.Result())
    ensures g.status == AnalysisFailed ==> g.files == map[]
    ensures g.status == Saved ==> g.files.Keys == {YamlFile, PolicyFile}
    ensures g.status == Crashed && g.trace.Some? ==> g.files == map[] || g.files == map[YamlFile := ""]
  {
    if apiKey == "" then GeneratorRun(KeyMissing, None, None, map[])
    else match requestFile
      case Missing => GeneratorRun(RequestMissing, None, None, map[])
      // caught by the outer `except Exception` before any call
      case Unreadable(_) => GeneratorRun(Crashed, None, None, map[])
      case Contents(raw) =>
        var request := Strip(raw);
        var payload := PolicyPayload.BuildPayload(request);
        var t := Call(script, parse);
        var analysis := t.Result();
        if !Truthy(analysis) then GeneratorRun(AnalysisFailed, Some(payload), Some(t), map[])
        // `.get` on a truthy value that is not a dict raises AttributeError
        else if !analysis.JObj? then GeneratorRun(Crashed, Some(payload), Some(t), map[])
        else
          var summary := GetOr(analysis, "policy_summary", JStr("N/A"));
          var yaml := GetOr(analysis, "hardened_kubernetes_yaml", JStr(""));
          // `open(..., 'w')` has created the file when `write` rejects a non-string
          if !yaml.JStr? then GeneratorRun(Crashed, Some(payload), Some(t), map[YamlFile := ""])
          else GeneratorRun(Saved, Some(payload), Some(t),
                            map[YamlFile := yaml.s, PolicyFile := PolicyText(Str(summary, show))])
  }

  /** When every attempt faults, `main` reports the failure and writes nothing. */
  lemma ExhaustionWritesNothing(apiKey: string, request: string, script: seq<Outcome>,
                                parse: Parser, show: Json -> string)
    requires |script| >= MaxRetries && apiKey != ""
    requires forall j :: 0 <= j < MaxRetries ==> Attempt(script[j], parse).Faulted?
    ensures Generate(apiKey, Contents(request), script, parse, show).status == AnalysisFailed
    ensures Generate(apiKey, Contents(request), script, parse, show).files == map[]
  {
    ExhaustedSchedule(script, parse);
    assert !Truthy(Call(script, parse).Result());
  }

  /** A first success, at whatever attempt, whose reply parses to `{}` and
      five faulted attempts leave `main` in the same state: same status,
      same files. */
  lemma EmptyResultIndistinguishable(apiKey: string, request: string, succeeding: seq<Outcome>,
                                     failing: seq<Outcome>, parse: Parser, show: Json -> string, k: nat)
    requires k < MaxRetries <= |succeeding| && |failing| >= MaxRetries && apiKey != ""
    requires forall j :: 0 <= j < k ==> Attempt(succeeding[j], parse).Faulted?
    requires Attempt(succeeding[k], parse) == Parsed(JObj(map[]))
    requires forall j :: 0 <= j < MaxRetries ==> Attempt(failing[j], parse).Faulted?
    ensures Call(succeeding, parse).ending.Returned? && Call(failing, parse).ending.Exhausted?
    ensures Generate(apiKey, Contents(request), succeeding, parse, show).status
            == Generate(apiKey, Contents(request), failing, parse, show).status == AnalysisFailed
    ensures Generate(apiKey, Contents(request), succeeding, parse, show).files
            == Generate(apiKey, Contents(request), failing, parse, show).files == map[]
  {
    EmptyObjectLooksLikeSentinel(succeeding, parse, k);
    ExhaustionWritesNothing(apiKey, request, failing, parse, show);
    AllFaultsIffExhausted(failing, parse);
  }

  /** With a key and a request file, `main` saves exactly when the result is
      a non-empty dict whose YAML entry (default `""`) is a string; the YAML
      file then holds that string verbatim and the policy file the summary
      (default `N/A`) behind its fixed label. */
  lemma SavedFilesContents(apiKey: string, request: string, script: seq<Outcome>,
                           parse: Parser, show: Json -> string)
    requires |script| >= MaxRetries && apiKey != ""
    ensures var g := Generate(apiKey, Contents(request), script, parse, show);
            var a := Call(script, parse).Result();
            g.status == Saved
            <==> a.JObj? && Truthy(a) && GetOr(a, "hardened_kubernetes_yaml", JStr("")).JStr?
    ensures var g := Generate(apiKey, Contents(request), script, parse, show);
            var a := Call(script, parse).Result();
            g.status == Saved ==>
              && g.files[YamlFile] == GetOr(a, "hardened_kubernetes_yaml", JStr("")).s
              && g.files[PolicyFile] == PolicyText(Str(GetOr(a, "policy_summary", JStr("N/A")), show))
  {
  }
}

=== FILE: policy_payload.dfy ===
/** The request body `generate_policy_payload` builds for the Kubernetes
    hardening stage: a system instruction, a user query that ends with the
    security requirement, and a response schema the service must follow. */
module PolicyPayload {
  import opened Options
  import opened Json

  /** A response schema: OBJECT nodes with named properties and a list of
      required names, and STRING leaves with a description. */
  datatype Schema =
    | SObject(properties: map<string, Schema>, required: seq<string>)
    | SString(description: string)

  /** Every `required` name is a property of its object, at every level. */
  predicate WellFormed(s: Schema)
    decreases s
  {
    match s
    case SString(_) => true
    case SObject(props, req) =>
      && (forall i :: 0 <= i < |req| ==> req[i] in props)
      && (forall k :: k in props ==> WellFormed(props[k]))
  }

  function Strings(names: seq<string>): seq<Json> {
    seq(|names|, i requires 0 <= i < |names| => JStr(names[i]))
  }

  /** The schema as the dictionary sent on the wire. */
  function ToJson(s: Schema): Json
    decreases s
  {
    match s
    case SString(d) => JObj(map["type" := JStr("STRING"), "description" := JStr(d)])
    case SObject(props, req) =>
      JObj(map[
        "type" := JStr("OBJECT"),
        "properties" := JObj(map k | k in props :: ToJson(props[k])),
        "required" := JArr(Strings(req))])
  }

  /** The names of an array that holds only strings. */
  function Names(items: seq<Json>): Option<seq<string>> {
    if |items| == 0 then Some([])
    else match (items[0], Names(items[1..]))
      case (JStr(n), Some(rest)) => Some([n] + rest)
      case _ => None
  }

  /** Reads a schema back from its wire dictionary. */
  function FromJson(j: Json): Option<Schema>
    decreases j
  {
    if !(j.JObj? && "type" in j.fields) then None
    else if j.fields["type"] == JStr("STRING") then
      if "description" in j.fields && j.fields["description"].JStr?
      then Some(SString(j.fields["description"].s)) else None
    else if j.fields["type"] == JStr("OBJECT") then
      if !("properties" in j.fields && j.fields["properties"].JObj?
           && "required" in j.fields && j.fields["required"].JArr?) then None
      else
        var props := j.fields["properties"].fields;
        var names := Names(j.fields["required"].items);
        if names.Some? && forall k :: k in props ==> FromJson(props[k]).Some?
        then Some(SObject(map k | k in props :: FromJson(props[k]).value, names.value))
        else None
    else None
  }

  lemma {:induction false} NamesOfStrings(names: seq<string>)
    ensures Names(Strings(names)) == Some(names)
  {
    if |names| > 0 {
      assert Strings(names)[1..] == Strings(names[1..]);
      NamesOfStrings(names[1..]);
      assert [names[0]] + names[1..] == names;
    }
  }

  /** Decoding the wire form of a schema gives the schema back. */
  lemma {:induction false} SchemaRoundTrip(s: Schema)
    ensures FromJson(ToJson(s)) == Some(s)
    decreases s
  {
    match s
    case SString(_) =>
    case SObject(props, req) =>
      var wire := map k | k in props :: ToJson(props[k]);
      forall k | k in props ensures FromJson(wire[k]) == Some(props[k]) {
        SchemaRoundTrip(props[k]);
      }
      NamesOfStrings(req);
      var j := ToJson(s);
      assert j.fields["type"] == JStr("OBJECT");
      assert j.fields["properties"] == JObj(wire);
      assert j.fields["required"] == JArr(Strings(req));
      assert forall k :: k in wire ==> FromJson(wire[k]).Some?;
      assert j.fields["type"] != JStr("STRING");
      var decoded := FromJson(j);
      assert decoded.Some? && decoded.value.SObject?;
      assert decoded.value.required == req;
      var back := decoded.value.properties;
      assert back.Keys == props.Keys;
      assert forall k :: k in props ==> back[k] == props[k];
      assert back == props;
  }

  const SummaryDescription: string :=
    "A concise, single-sentence summary of the security rule that was enforced "
    + "(e.g., 'All containers must run as non-root user and use read-only filesystems')."

  const YamlDescription: string :=
    "The complete, hardened Kubernetes Deployment YAML, including securityContext fields "
    + "to meet the requirement. MUST be a valid YAML string."

  /** The two fields the hardening stage asks for. */
  const PolicySchema: Schema :=
    SObject(
      map["policy_summary" := SString(SummaryDescription),
          "hardened_kubernetes_yaml" := SString(YamlDescription)],
      ["policy_summary", "hardened_kubernetes_yaml"])

  /** The policy schema is an OBJECT whose two required names are both
      STRING properties. */
  lemma PolicySchemaShape()
    ensures WellFormed(PolicySchema)
    ensures PolicySchema.SObject?
    ensures PolicySchema.properties.Keys == {"policy_summary", "hardened_kubernetes_yaml"}
    ensures forall k :: k in PolicySchema.properties ==> PolicySchema.properties[k].SString?
    ensures forall n :: n in PolicySchema.required <==> n in PolicySchema.properties
  {
  }

  const SystemPrompt: string :=
    "You are a Kubernetes Security Architect specializing in hardening deployments. "
    + "The user will provide a high-level security requirement. You MUST generate two outputs: "
    + "1) A complete, hardened Kubernetes Deployment YAML that satisfies the request. "
    + "2) A summary of the rule implemented, suitable for a policy engine (e.g., OPA or Kube-bench). "
    + "Generate the findings in the exact JSON format specified in the schema."

  const QueryIntro: string :=
    "Based on the following security requirement, generate a hardened Kubernetes Deployment YAML "
    + "for a basic Nginx container, and summarize the enforcement rule:\n\n"

  const RequirementLabel: string := "SECURITY REQUIREMENT: "

  function UserQuery(securityRequest: string): string {
    QueryIntro + RequirementLabel + securityRequest
  }

  /** `{"parts": [{"text": t}]}` */
  function OnePart(t: string): Json {
    JObj(map["parts" := JArr([JObj(map["text" := JStr(t)])])])
  }

  const QueryTextPath: seq<Step> := [Key("contents"), Index(0), Key("parts"), Index(0), Key("text")]
  const SystemTextPath: seq<Step> := [Key("systemInstruction"), Key("parts"), Index(0), Key("text")]
  const MimeTypePath: seq<Step> := [Key("generationConfig"), Key("responseMimeType")]
  const SchemaPath: seq<Step> := [Key("generationConfig"), Key("responseSchema")]

  /** `generate_policy_payload(security_request)` */
  function BuildPayload(securityRequest: string): Json {
    JObj(map[
      "contents" := JArr([OnePart(UserQuery(securityRequest))]),
      "systemInstruction" := OnePart(SystemPrompt),
      "generationConfig" := JObj(map[
        "responseMimeType" := JStr("application/json"),
        "responseSchema" := ToJson(PolicySchema)])])
  }

  /** Every payload asks for JSON output constrained by the policy schema. */
  lemma PayloadRequestsJson(securityRequest: string)
    ensures BuildPayload(securityRequest).JObj?
    ensures BuildPayload(securityRequest).fields.Keys == {"contents", "systemInstruction", "generationConfig"}
    ensures Lookup(BuildPayload(securityRequest), MimeTypePath) == Some(JStr("application/json"))
    ensures Lookup(BuildPayload(securityRequest), SchemaPath) == Some(ToJson(PolicySchema))
  {
  }

  /** The user turn and the system instruction each hold exactly one part;
      the user text is the query ending with the labelled requirement, the
      system text is the system prompt. */
  lemma PayloadParts(securityRequest: string)
    ensures LengthAt(BuildPayload(securityRequest), [Key("contents")]) == Some(1)
    ensures LengthAt(BuildPayload(securityRequest), [Key("contents"), Index(0), Key("parts")]) == Some(1)
    ensures LengthAt(BuildPayload(securityRequest), [Key("systemInstruction"), Key("parts")]) == Some(1)
    ensures Lookup(BuildPayload(securityRequest), SystemTextPath) == Some(JStr(SystemPrompt))
    ensures Lookup(BuildPayload(securityRequest), QueryTextPath) == Some(JStr(UserQuery(securityRequest)))
  {
  }

  /** The user query ends with `"SECURITY REQUIREMENT: " + security_request`. */
  lemma QueryEndsWithRequirement(securityRequest: string)
    ensures UserQuery(securityRequest)[|QueryIntro|..] == RequirementLabel + securityRequest
  {
  }

  /** The security requirement a payload carries: its user text with the
      fixed query prefix removed. */
  function RequestOf(payload: Json): Option<string> {
    var prefix := QueryIntro + RequirementLabel;
    match Lookup(payload, QueryTextPath)
    case Some(JStr(q)) => if prefix <= q then Some(q[|prefix|..]) else None
    case _ => None
  }

  /** The requirement can be read back from the payload built from it, so
      distinct requirements give distinct payloads. */
  lemma PayloadRoundTrip(securityRequest: string)
    ensures RequestOf(BuildPayload(securityRequest)) == Some(securityRequest)
  {
  }

  lemma PayloadInjective(a: string, b: string)
    requires BuildPayload(a) == BuildPayload(b)
    ensures a == b
  {
    PayloadRoundTrip(a);
    PayloadRoundTrip(b);
  }
}

=== FILE: text.dfy ===
/** The string operations the two scripts rely on: Python's `sub in s`,
    `s.lower()` and `s.strip()`, and prefix/suffix facts about `+`. */
module Text {

  /** `sub` occurs in `s` starting at index `i`. */
  predicate OccursAt(s: string, sub: string, i: nat) {
    i + |sub| <= |s| && s[i..i + |sub|] == sub
  }

  /** Python's `sub in s` for strings. */
  predicate Contains(s: string, sub: string) {
    exists i | 0 <= i <= |s| - |sub| :: OccursAt(s, sub, i)
  }

  /** A string that lacks some character of `sub` cannot contain `sub`. */
  lemma MissingCharRulesOut(s: string, sub: string, k: nat)
    requires k < |sub| && sub[k] !in s
    ensures !Contains(s, sub)
  {
  }

  /** Lower-cases one ASCII letter; every other character is unchanged. */
  function LowerChar(c: char): char {
    if 'A' <= c <= 'Z' then (c as int + 32) as char else c
  }

  /** `s.lower()`, restricted to ASCII letters. */
  function Lower(s: string): string {
    seq(|s|, i requires 0 <= i < |s| => LowerChar(s[i]))
  }

  /** Lower-casing twice is lower-casing once. */
  lemma LowerIdempotent(s: string)
    ensures Lower(Lower(s)) == Lower(s)
  {
  }

  /** Lower-casing creates no occurrence of a string without letters. */
  lemma LowerCreatesNoLetterless(s: string, sub: string, i: nat)
    requires forall k :: 0 <= k < |sub| ==> !('A' <= sub[k] <= 'Z') && !('a' <= sub[k] <= 'z')
    ensures OccursAt(Lower(s), sub, i) ==> OccursAt(s, sub, i)
  {
  }

  /** The characters Python's `str.isspace` accepts, hence those `strip()` removes. */
  predicate IsSpace(c: char) {
    || '\U{9}' <= c <= '\U{D}'
    || '\U{1C}' <= c <= '\U{20}'
    || c == '\U{85}' || c == '\U{A0}' || c == '\U{1680}'
    || '\U{2000}' <= c <= '\U{200A}'
    || c == '\U{2028}' || c == '\U{2029}' || c == '\U{202F}' || c == '\U{205F}' || c == '\U{3000}'
  }

  /** Index of the first non-space character at or after `i`, or `|s|`. */
  function SkipSpace(s: string, i: nat): (j: nat)
    requires i <= |s|
    ensures i <= j <= |s|
    ensures forall k :: i <= k < j ==> IsSpace(s[k])
    ensures j < |s| ==> !IsSpace(s[j])
    decreases |s| - i
  {
    if i == |s| || !IsSpace(s[i]) then i else SkipSpace(s, i + 1)
  }

  /** One past the last non-space character before `j`, or `lo`. */
  function TrimEnd(s: string, lo: nat, j: nat): (e: nat)
    requires lo <= j <= |s|
    ensures lo <= e <= j
    ensures forall k :: e <= k < j ==> IsSpace(s[k])
    ensures e > lo ==> !IsSpace(s[e - 1])
    decreases j
  {
    if j == lo || !IsSpace(s[j - 1]) then j else TrimEnd(s, lo, j - 1)
  }

  /** `s.strip()`: `s` without its leading and trailing whitespace. */
  function Strip(s: string): (r: string)
    ensures exists lo: nat, hi: nat ::
              && lo <= hi <= |s| && r == s[lo..hi]
              && (forall k :: 0 <= k < lo ==> IsSpace(s[k]))
              && (forall k :: hi <= k < |s| ==> IsSpace(s[k]))
    ensures |r| > 0 ==> !IsSpace(r[0]) && !IsSpace(r[|r| - 1])
  {
    var lo := SkipSpace(s, 0);
    var hi := TrimEnd(s, lo, |s|);
    assert hi < |s| ==> forall k :: hi <= k < |s| ==> IsSpace(s[k]);
    s[lo..hi]
  }

  /** Stripping twice strips nothing more. */
  lemma StripIdempotent(s: string)
    ensures Strip(Strip(s)) == Strip(s)
  {
  }

  /** `p + x` starts with `p`, and dropping `p` gives back `x`. */
  lemma PrefixConcat(p: string, x: string)
    ensures p <= p + x
    ensures (p + x)[|p|..] == x
  {
  }
}
